=== FILE: README.md ===
# Todo list with a masonry grid — a Dafny model

This project models the logic at the core of a browser todo/notes app. The
rest of the app is React and DOM glue. The model covers:

- **The list hook** (`useTodoList`). It loads the list from browser storage
  at start-up. It falls back to an empty list when reading the key throws,
  when the key is missing or holds the empty string, or when the stored text
  does not parse.
  It offers `addItem`, `deleteItem(index)` and `modifyItem(index, partial)`.
  Each of these replaces the list wholesale and writes the new list under the
  `"todos"` key.
- **The masonry grid** (`TodoMasonryGrid`). It picks the pinned or the
  non-pinned view and reverses it so the newest card comes first. It maps the
  window width to 1, 3, 5 or 7 columns and deals the cards round-robin into
  the columns. It also keeps a small drag state (`draggingItem`/`overItem`)
  whose drop sends a uuid-mode reorder request.
- **The quick-note box** (`AddNote`). Its save guard adds a note when the
  trimmed title or the trimmed content is non-empty. It also enters and
  leaves editing mode.
- **The "Add New Item" dialog** (`addItemForm`). Its submit handler requires
  a non-blank title. Opening a closed dialog clears its error, and Escape closes it
  only while it is open.

Everything is a pure function over immutable datatypes. Timestamps (`Date`)
are opaque integers passed in as parameters. JavaScript's `trim` is modelled
exactly: it strips the ECMAScript WhiteSpace and LineTerminator characters
from both ends. Cards in the grid are a type parameter, because the layout never looks
inside a card: the reversal and the round-robin dealing
(src/components/TodoMasonryGrid.tsx:19-22, 50-57) only move cards.

Modules, one per file:

- `Wrappers`: `Option`.
- `Seqs`: filter-by-position, reverse.
- `Text`: trim.
- `ListTypes`: `List`/`ListItem`.
- `TodoList`: the hook.
- `DivMod`: quotient/remainder facts.
- `MasonryGrid`: views, columns.
- `DragAndDrop`: drag state.
- `AddNote`: the quick-note box.
- `AddItemForm`: the dialog.

The hook's own documentation describes deletion and modification by list
index (src/hooks/useTodoList.tsx:14-15, 28-32), and the model follows it.
Other parts of the repository assume a richer hook than `useTodoList` as
written in src/hooks/useTodoList.tsx:

- src/components/TodoCard.tsx:89 and src/components/TodoCardDropdownOptions.tsx:29
  pass a uuid to `deleteItem`.
- src/providers/TodoProvider.tsx:6-16 takes `reorderItems`, `pinItem` and
  the pinned views from a hook that returns four values.
- src/components/TodoCard.tsx:64 reads `todo.pinned`, a field `ListItem`
  does not have.

The model keeps to the hook as written, so items have no `uuid` or `pinned`
field. No mutation touches the list-level `createdAt`/`updatedAt`, because
the hook spreads the old list and replaces only `items`.

## Model

| member | source | states |
|---|---|---|
| Text.TrimStart | src/components/AddNote.tsx:61-62 | the result is a suffix of the input, everything dropped is whitespace, and it does not start with whitespace |
| Text.TrimEnd | src/components/AddNote.tsx:61-62 | the result is a prefix of the input, everything dropped is whitespace, and it does not end with whitespace |
| Text.Trim | src/components/addItemForm.tsx:64 | `trim()` is empty exactly when the text is all whitespace; a non-empty result neither starts nor ends with whitespace |
| Text.TrimSplit | src/components/addItemForm.tsx:72-73 | the input is blank text, then the trimmed text, then blank text |
| Text.TrimIdempotent | src/components/AddNote.tsx:61-62 | trimming a trimmed string changes nothing |
| Seqs.RemoveAt | src/hooks/useTodoList.tsx:81 | filtering out one index gives `s[..i] + s[i+1..]` for a valid index and `s` itself for any other integer |
| Seqs.RemoveAtMultiset | src/hooks/useTodoList.tsx:81 | removing a valid index takes exactly that one element out of the multiset |
| Seqs.Reverse | src/components/TodoMasonryGrid.tsx:19-22 | the reversal has the same length and position `i` holds element `n-1-i` |
| Seqs.ReverseReverse | src/components/TodoMasonryGrid.tsx:19-22 | reversing twice gives the sequence back |
| Seqs.ReverseMultiset | src/components/TodoMasonryGrid.tsx:19-22 | reversal neither adds nor loses elements |
| TodoList.EmptyList | src/hooks/useTodoList.tsx:55-58 | the fallback list has no items |
| TodoList.InitialList | src/hooks/useTodoList.tsx:50-59 | stored text that is non-empty and parses becomes the list; a read that throws, a missing key, an empty string or unparsable text give an empty list stamped "now" |
| TodoList.AddItem | src/hooks/useTodoList.tsx:62-73 | length grows by one, all earlier items are unchanged, and the last item has exactly the given title, content and completed plus the two fresh timestamps; the list timestamps are kept |
| TodoList.DeleteItem | src/hooks/useTodoList.tsx:78-82 | a valid index yields `items[..i] + items[i+1..]`, removing exactly that item from the multiset; a negative or too-large index leaves the list unchanged; the list timestamps are kept |
| TodoList.Merge | src/hooks/useTodoList.tsx:91 | in the merged item every field the partial gives overwrites and every field it leaves out keeps its old value |
| TodoList.ModifyItem | src/hooks/useTodoList.tsx:87-93 | length is kept, every other index is unchanged, index `i` is the merge of the old item with the partial, an out-of-range index changes nothing, and the list timestamps are kept |
| TodoList.Then | src/hooks/useTodoList.tsx:91 | spreading `p` and then `q` onto an item is spreading one combined partial in which `q`'s fields win |
| TodoList.Mutate | src/hooks/useTodoList.tsx:62-96 | no mutation changes the list-level `createdAt`/`updatedAt` |
| TodoList.Apply | src/hooks/useTodoList.tsx:70-95 | the new in-memory list is the mutation applied to the old one, the value written to storage is that new list, and the list timestamps are kept |
| TodoList.ApplyAllInSync | src/hooks/useTodoList.tsx:62-96 | after any non-empty run of mutations, storage holds the in-memory list and the list timestamps are the original ones |
| TodoList.DeleteUndoesAdd | src/hooks/useTodoList.tsx:70-82 | deleting the index an add just filled gives back the list as it was |
| TodoList.DeletePastEndTwice | src/hooks/useTodoList.tsx:81 | a delete at an index outside the list is a no-op, and so is repeating it |
| TodoList.ModifyTwice | src/hooks/useTodoList.tsx:88-93 | two modifications of one index equal one modification by the combined partial |
| TodoList.ModifyIdempotent | src/hooks/useTodoList.tsx:88-93 | applying the same partial twice is applying it once |
| TodoList.ModifyRestore | src/hooks/useTodoList.tsx:88-93 | writing back all of an item's old fields undoes any modification of it |
| TodoList.ModifyNoChange | src/hooks/useTodoList.tsx:88-93 | an empty partial leaves the list unchanged |
| MasonryGrid.DisplayItems | src/components/TodoMasonryGrid.tsx:10-22 | the grid shows the pinned view if and only if the `viewMethod` prop is pinned, and the non-pinned view when the prop is "all" or absent, as its exact reverse, so the last item comes first; the shown cards are the view's multiset |
| MasonryGrid.DefaultShowsAll | src/components/TodoMasonryGrid.tsx:10 | leaving out `viewMethod` is the same as passing "all": the reversed non-pinned view |
| MasonryGrid.ColCount | src/components/TodoMasonryGrid.tsx:35-41 | 7 columns exactly when width ≥ 1280, 5 exactly for 1024–1279, 3 exactly for 768–1023, 1 exactly below 768 |
| MasonryGrid.ColCountMonotone | src/components/TodoMasonryGrid.tsx:35-41 | a wider window never has fewer columns |
| MasonryGrid.ColumnsData | src/components/TodoMasonryGrid.tsx:50-57 | dealing yields exactly `colCount` columns, whose lengths sum to the number of cards and whose cards together are the input multiset |
| MasonryGrid.ColumnsDataShape | src/components/TodoMasonryGrid.tsx:50-57 | column `c` holds `n / k` cards plus one if `c < n % k`, and its `j`-th card is display card `j*k + c` |
| MasonryGrid.DisplayIndexUnique | src/components/TodoMasonryGrid.tsx:53 | display position `idx` is slot `j` of column `c` exactly when `c == idx % k` and `j == idx / k` |
| MasonryGrid.EachCardOnce | src/components/TodoMasonryGrid.tsx:52-55 | display card `idx` sits in column `idx % k` at position `idx / k`, and in no other slot of any column |
| MasonryGrid.ColumnsBalanced | src/components/TodoMasonryGrid.tsx:50-57 | any two column lengths differ by at most one, and a column is never shorter than a column to its right |
| MasonryGrid.ColumnKeepsOrder | src/components/TodoMasonryGrid.tsx:52-55 | within a column, a later card comes later in display order |
| MasonryGrid.NewestFirst | src/components/TodoMasonryGrid.tsx:16-57 | the top card of the first column is the last item of the shown view |
| DragAndDrop.Handle | src/components/TodoMasonryGrid.tsx:60-88 | a start records the dragged card; hovering over the dragged card changes nothing; hovering over another card makes it the target; a drop sends a uuid-mode reorder with the pre-drop ids and resets both; drag end resets both without a request; only a drop sends a request |
| DragAndDrop.Hover | src/components/TodoMasonryGrid.tsx:64-72 | a run of `handleCardDragOver` calls never changes the dragged card, and leaves the target either as it was or set to one of the hovered cards other than the dragged one |
| DragAndDrop.LastOther | src/components/TodoMasonryGrid.tsx:68-71 | the reference definition of the drop target: the result is the fallback or a listed card other than the dragged one |
| DragAndDrop.LastOtherIsLast | src/components/TodoMasonryGrid.tsx:68-71 | the chosen target is at a position holding a card other than the dragged one, and every later position holds the dragged card; when no such position exists, the earlier target is kept |
| DragAndDrop.HoverTracksLastOther | src/components/TodoMasonryGrid.tsx:64-72 | hovering never changes the dragged card, and the target is the last hovered card that is not the dragged one |
| DragAndDrop.Gesture | src/components/TodoMasonryGrid.tsx:60-83 | start, any hovers, then drop: the request moves the dragged card onto the last other hovered card, and the grid ends idle |
| AddNote.SaveNote | src/components/AddNote.tsx:60-79 | with blank title and blank content nothing changes; otherwise the trimmed note is added as not completed, the title field and content are emptied, and an editor clear is requested; a missing title field counts as empty |
| AddNote.SaveNoteAdds | src/components/AddNote.tsx:60-79 | a save adds one item exactly when the title or the content has text (title alone or content alone suffices), the item is the trimmed note with `completed = false`, and storage holds the new list |
| AddNote.SaveNoteTwice | src/components/AddNote.tsx:72-78 | saving again right after a successful save changes nothing |
| AddNote.Handle | src/components/AddNote.tsx:55-95 | focus enters editing; a press outside while editing, or Close, saves and then leaves editing with the toolbar hidden; a press inside, or any press when not editing, changes nothing; other events never touch the list |
| AddNote.HandleKeepsValid | src/components/AddNote.tsx:182-249 | the box starts with the title field off screen and the toolbar hidden; every event keeps the title field on screen exactly while editing and the toolbar shown only while editing |
| AddNote.LeaveEditing | src/components/AddNote.tsx:240-244 | Close saves and then leaves editing with the toolbar hidden and the title field gone |
| AddNote.WriteAndClose | src/components/AddNote.tsx:55-95 | focus, type a title, write content, Close: a note is added exactly when either text is non-blank, with both texts trimmed, and the box ends closed |
| AddItemForm.Submit | src/components/addItemForm.tsx:53-87 | a blank title gives "Title is required" and adds nothing; any other title adds the trimmed title and content as not completed (empty content allowed), resets the form and calls close; `isSubmitting` is false either way |
| AddItemForm.SubmitAdds | src/components/addItemForm.tsx:71-75 | a submission adds one item exactly when the title is non-blank, the item is the trimmed input with `completed = false`, and storage holds the new list |
| AddItemForm.Handle | src/components/addItemForm.tsx:27-87 | a closed-to-open change of `isOpen` clears the error and `isSubmitting`; closing, or opening a dialog already open, keeps them; a key press changes no state and calls close exactly for Escape while open; a submission is `Submit` |
| AddItemForm.HandleKeepsValid | src/components/addItemForm.tsx:53-87 | the dialog starts valid, and after every event no submission is running and the only error shown is "Title is required" |
| AddItemForm.EscapeOnlyWhileOpen | src/components/addItemForm.tsx:40-51 | a key press calls close only for Escape while the dialog is open, and a closed dialog ignores key presses |
| AddItemForm.ReopenClearsError | src/components/addItemForm.tsx:32-36 | a blank title shows "Title is required" and leaves the dialog open with the list unchanged; closing keeps the error, and reopening clears it |
| AddItemForm.OpenWhileOpenKeepsError | src/components/addItemForm.tsx:27-37 | asking a dialog that is already open to open keeps the "Title is required" error on show, since the reset effect runs only when `isOpen` changes |
| AddItemForm.RetryAfterError | src/components/addItemForm.tsx:53-87 | a blank-title failure followed by a real title clears the error and adds exactly one item |

## Left out

- TodoList.InitialList: stored text that parses is taken to be a list. The hook does not check this, so text such as `null` or `{}` would become the state as is, and the app would then fail when it reads `todos.items`. The `console.error` call on a failed read is also left out.
- Storage and JSON. The stored text is an input to `InitialList`, and `JSON.parse` is a parameter. A written list is recorded as a value, not as text. Timestamps coming back from storage as strings after a reload are not modelled.
- Persistence write failures. `setItem` throwing (full or disabled storage) is not modelled. Neither is the dialog's "An error occurred" message for errors that are not `Error` objects.
- `reorderItems`, `pinItem`, `unpinItem`, `pinnedItems`, `nonPinnedItems` and the item `uuid`/`pinned` fields. The providers and cards use them, but `useTodoList` as written in src/hooks/useTodoList.tsx does not define them. The two views are inputs to `DisplayItems`, and a reorder is only the request the grid sends.
- Deleting by uuid. Two card components call `deleteItem` with a uuid string, which the index-based hook does not support. Only the index form is modelled.
- TodoList.DeleteItem: takes the index as a mathematical integer. A fractional or NaN JavaScript number matches no position and so behaves like an out-of-range index.
- TodoList.ModifyItem: a partial whose key is present but explicitly `undefined` is not modelled. JavaScript would copy the `undefined`.
- React machinery: `useState`, `useEffect`, `useMemo`, the context and provider, and the `localItems` copy. The grid is taken to render the reversed view directly. Events are handled one at a time, each seeing the state the previous one left. Two mutations made within one render would see the same stale list, and this is not modelled.
- AddNote.Handle: mounting the title field is reduced to "an empty field appears when editing starts and disappears when it ends". Focusing the field and the DOM `contains` test are left out; the `inside` flag stands for the test.
- The Lexical rich-text editor, its plugins and configuration. The editor is reduced to the plain text it reports on each change. The clear request is reduced to a flag the clear-editor plugin resets.
- Window size. The width is a parameter of `ColCount`; the resize listener is left out. The grid's initial column count of 1, used before the width is first measured, is left out.
- The 300 ms delay and the asynchronous shape of `handleSubmit`. The browser's own `required` check on the title field and focusing the title on open are also left out.
- The grid's per-card `uuid` reads (TodoMasonryGrid.tsx:97-99) serve only rendering: the React key and the `isDragging`/`isDropTarget` highlights. `DragAndDrop` takes card ids as plain strings that are not linked to the cards `MasonryGrid` lays out.
- `dataTransfer.setData` in the card's drag start, and all rendering, class names and presentation-only components.

=== FILE: add_item_form.dfy ===
/**
 * The "Add New Item" dialog (src/components/addItemForm.tsx): a submit
 * handler that insists on a non-blank title, and the resets and Escape
 * handling tied to the dialog being open.
 */
module AddItemForm {

  import opened Wrappers
  import opened Text
  import opened ListTypes
  import TodoList

  /** The error shown when the title is blank. */
  const TitleRequired: string := "Title is required"

  /** The dialog's own state: whether a submission is running and the error on show. */
  datatype FormState = FormState(isSubmitting: bool, error: Option<string>)

  /**
   * What a submission leaves behind: the dialog state, the todo list, whether
   * the form was reset and whether the dialog's close callback was called.
   */
  datatype SubmitResult = SubmitResult(
    form: FormState,
    store: TodoList.Store,
    formReset: bool,
    closeCalled: bool)

  /**
   * `handleSubmit` with the submitted `title` and `content` fields. A blank
   * title fails with `TitleRequired` and changes nothing else; any other
   * title adds an uncompleted item with the trimmed title and trimmed
   * content (blank content is accepted), resets the form and calls the close
   * callback. Either way the submission is over when the handler returns.
   */
  function Submit(f: FormState, store: TodoList.Store, title: string, content: string,
                  now1: Date, now2: Date): (r: SubmitResult)
    ensures !r.form.isSubmitting
    ensures r.form.error == Some(TitleRequired) <==> IsBlank(title)
    ensures r.form.error.None? <==> !IsBlank(title)
    ensures r.closeCalled <==> !IsBlank(title)
    ensures r.formReset <==> !IsBlank(title)
    ensures IsBlank(title) ==> r.store == store
    ensures !IsBlank(title) ==>
              r.store == TodoList.Apply(store, TodoList.Add(
                TodoList.NewItem(Trim(title), Trim(content), false), now1, now2))
  {
    if Trim(title) == "" then
      SubmitResult(FormState(false, Some(TitleRequired)), store, false, false)
    else
      var item := TodoList.NewItem(Trim(title), Trim(content), false);
      SubmitResult(FormState(false, None), TodoList.Apply(store, TodoList.Add(item, now1, now2)), true, true)
  }

  /** A submission adds one item when the title has text and none otherwise; an added item is the trimmed input, not completed. */
  lemma SubmitAdds(f: FormState, store: TodoList.Store, title: string, content: string, now1: Date, now2: Date)
    ensures var r := Submit(f, store, title, content, now1, now2);
            |r.store.value.items| == |store.value.items| + (if IsBlank(title) then 0 else 1)
    ensures var r := Submit(f, store, title, content, now1, now2);
            !IsBlank(title) ==>
              && r.store.value.items[|store.value.items|] ==
                   ListItem(Trim(title), Trim(content), false, now1, now2)
              && r.store.written == Some(r.store.value)
  {
  }

  /** The dialog: its `isOpen` prop and its own state. */
  datatype Dialog = Dialog(isOpen: bool, form: FormState)

  const Closed: Dialog := Dialog(false, FormState(false, None))

  /** What happens to the dialog. */
  datatype DialogEvent =
    | SetOpen(open: bool)                          // the parent changes the `isOpen` prop
    | KeyDown(key: string)                         // a key press anywhere in the document
    | SubmitForm(title: string, content: string)   // the form is submitted with these fields

  /** The dialog after an event, the todo list, and the side effects the event caused. */
  datatype DialogResult = DialogResult(
    dialog: Dialog,
    store: TodoList.Store,
    formReset: bool,
    closeCalled: bool)

  /**
   * One event. A change of the `isOpen` prop from closed to open clears the
   * error and the submitting flag; closing, or setting the prop to the value
   * it already has, leaves them, since the reset runs only when the prop
   * changes; Escape calls the close callback, but only while the dialog
   * is open, and other keys do nothing; a submission runs `Submit`.
   */
  function Handle(d: Dialog, store: TodoList.Store, e: DialogEvent, now1: Date, now2: Date): (r: DialogResult)
    ensures e.SetOpen? ==>
              && r.dialog.isOpen == e.open && r.store == store && !r.closeCalled && !r.formReset
              && (e.open && !d.isOpen ==> r.dialog.form == FormState(false, None))
              && (!(e.open && !d.isOpen) ==> r.dialog.form == d.form)
    ensures e.KeyDown? ==>
              && r.dialog == d && r.store == store && !r.formReset
              && (r.closeCalled <==> e.key == "Escape" && d.isOpen)
    ensures e.SubmitForm? ==>
              var s := Submit(d.form, store, e.title, e.content, now1, now2);
              r == DialogResult(d.(form := s.form), s.store, s.formReset, s.closeCalled)
  {
    match e
    case SetOpen(open) =>
      DialogResult(Dialog(open, if open && !d.isOpen then FormState(false, None) else d.form), store, false, false)
    case KeyDown(key) =>
      DialogResult(d, store, false, key == "Escape" && d.isOpen)
    case SubmitForm(title, content) =>
      var s := Submit(d.form, store, title, content, now1, now2);
      DialogResult(d.(form := s.form), s.store, s.formReset, s.closeCalled)
  }

  /**
   * Between events no submission is running, and the only error ever shown
   * is `TitleRequired`.
   */
  predicate Valid(d: Dialog)
  {
    !d.form.isSubmitting && (d.form.error.None? || d.form.error == Some(TitleRequired))
  }

  /** The dialog starts valid, and every event keeps it valid. */
  lemma HandleKeepsValid(d: Dialog, store: TodoList.Store, e: DialogEvent, now1: Date, now2: Date)
    ensures Valid(Closed)
    ensures Valid(d) ==> Valid(Handle(d, store, e, now1, now2).dialog)
  {
  }

  /** A key press asks the dialog to close only while it is open, and only for Escape. */
  lemma EscapeOnlyWhileOpen(d: Dialog, store: TodoList.Store, key: string, now1: Date, now2: Date)
    ensures Handle(d, store, KeyDown(key), now1, now2).closeCalled ==> d.isOpen && key == "Escape"
    ensures !d.isOpen ==> Handle(d, store, KeyDown(key), now1, now2) == DialogResult(d, store, false, false)
  {
  }

  /**
   * A blank title shows `TitleRequired` and keeps the dialog open; closing
   * and reopening the dialog clears the error again, with the list as the
   * failed submission left it.
   */
  lemma ReopenClearsError(store: TodoList.Store, blank: string, content: string, now1: Date, now2: Date)
    requires IsBlank(blank)
    ensures var r0 := Handle(Closed, store, SetOpen(true), now1, now2);
            var r1 := Handle(r0.dialog, r0.store, SubmitForm(blank, content), now1, now2);
            var r2 := Handle(r1.dialog, r1.store, SetOpen(false), now1, now2);
            var r3 := Handle(r2.dialog, r2.store, SetOpen(true), now1, now2);
            && r1.dialog.form.error == Some(TitleRequired) && r1.dialog.isOpen && !r1.closeCalled
            && r2.dialog.form.error == Some(TitleRequired)
            && r3.dialog.form == FormState(false, None)
            && r3.store == store
  {
  }

  /**
   * Asking an already-open dialog to open again does not reset it: an error
   * on show stays on show.
   */
  lemma OpenWhileOpenKeepsError(store: TodoList.Store, blank: string, content: string, now1: Date, now2: Date)
    requires IsBlank(blank)
    ensures var r0 := Handle(Closed, store, SetOpen(true), now1, now2);
            var r1 := Handle(r0.dialog, r0.store, SubmitForm(blank, content), now1, now2);
            var r2 := Handle(r1.dialog, r1.store, SetOpen(true), now1, now2);
            && r2.dialog.isOpen
            && r2.dialog.form.error == Some(TitleRequired)
  {
  }

  /** A failed submission followed by one with a real title: the error goes and exactly one item is added. */
  lemma RetryAfterError(f: FormState, store: TodoList.Store, blank: string, title: string, content: string,
                        now1: Date, now2: Date)
    requires IsBlank(blank) && !IsBlank(title)
    ensures var r1 := Submit(f, store, blank, content, now1, now2);
            var r2 := Submit(r1.form, r1.store, title, content, now1, now2);
            && r1.form.error == Some(TitleRequired)
            && r2.form.error.None?
            && r2.store.value == TodoList.AddItem(store.value,
                 TodoList.NewItem(Trim(title), Trim(content), false), now1, now2)
  {
  }
}

=== FILE: add_note.dfy ===
/**
 * The quick-note box (src/components/AddNote.tsx): a title input and a rich
 * text editor that, when the user leaves the box, save a note if either field
 * has non-blank text. The editor's document is reduced to the plain text it
 * reports on every change.
 */
module AddNote {

  import opened Wrappers
  import opened Text
  import opened ListTypes
  import TodoList

  /**
   * The component's state. `titleInput` is the title field's value, or None
   * while the field is not on screen (it is only rendered while editing);
   * `editorContent` is the editor's latest plain text.
   */
  datatype NoteEditor = NoteEditor(
    isEditing: bool,
    showToolbar: bool,
    shouldClearEditor: bool,
    titleInput: Option<string>,
    editorContent: string)

  const Initial: NoteEditor := NoteEditor(false, false, false, None, "")

  /** The component state together with the todo list it adds to. */
  datatype NoteResult = NoteResult(editor: NoteEditor, store: TodoList.Store)

  /** The trimmed title: a title field that is not on screen counts as empty. */
  function NoteTitle(ed: NoteEditor): string
  {
    Trim(ed.titleInput.GetOr(""))
  }

  /** The note would be saved: its title or its content has non-blank text. */
  predicate HasText(ed: NoteEditor)
  {
    !IsBlank(ed.titleInput.GetOr("")) || !IsBlank(ed.editorContent)
  }

  /**
   * `saveNote`: when the trimmed title or the trimmed content is non-empty,
   * adds an uncompleted item with both trimmed texts, empties the title field
   * and the content, and asks for the editor to be cleared. Otherwise
   * nothing changes.
   */
  function SaveNote(ed: NoteEditor, store: TodoList.Store, now1: Date, now2: Date): (r: NoteResult)
    ensures !HasText(ed) ==> r == NoteResult(ed, store)
    ensures HasText(ed) ==>
              r.store == TodoList.Apply(store, TodoList.Add(
                TodoList.NewItem(NoteTitle(ed), Trim(ed.editorContent), false), now1, now2))
    ensures HasText(ed) ==>
              && r.editor.titleInput == (if ed.titleInput.Some? then Some("") else None)
              && r.editor.editorContent == ""
              && r.editor.shouldClearEditor
              && r.editor.isEditing == ed.isEditing
              && r.editor.showToolbar == ed.showToolbar
  {
    var title := NoteTitle(ed);
    var content := Trim(ed.editorContent);
    if title != "" || content != "" then
      var item := TodoList.NewItem(title, content, false);
      var store' := TodoList.Apply(store, TodoList.Add(item, now1, now2));
      var cleared := if ed.titleInput.Some? then Some("") else None;
      NoteResult(ed.(titleInput := cleared, editorContent := "", shouldClearEditor := true), store')
    else
      NoteResult(ed, store)
  }

  /** A save adds one item when the note has text and none otherwise; an added item is the trimmed note, not completed. */
  lemma SaveNoteAdds(ed: NoteEditor, store: TodoList.Store, now1: Date, now2: Date)
    ensures var r := SaveNote(ed, store, now1, now2);
            |r.store.value.items| == |store.value.items| + (if HasText(ed) then 1 else 0)
    ensures var r := SaveNote(ed, store, now1, now2);
            HasText(ed) ==>
              && r.store.value.items[|store.value.items|] ==
                   ListItem(NoteTitle(ed), Trim(ed.editorContent), false, now1, now2)
              && r.store.written == Some(r.store.value)
  {
  }

  /** Saving again straight after a save changes nothing: the fields it empties are blank. */
  lemma SaveNoteTwice(ed: NoteEditor, store: TodoList.Store, now1: Date, now2: Date, now3: Date, now4: Date)
    ensures var r := SaveNote(ed, store, now1, now2);
            HasText(ed) ==> SaveNote(r.editor, r.store, now3, now4) == r
  {
    var r := SaveNote(ed, store, now1, now2);
    if HasText(ed) {
      var cleared := r.editor;
      assert cleared.titleInput.GetOr("") == "" && cleared.editorContent == "";
      assert IsBlank("");
      assert !HasText(cleared);
    }
  }

  /** What the user does to the box. */
  datatype NoteEvent =
    | Focus                         // focus lands anywhere in the box
    | TypeTitle(text: string)       // the title field's text becomes `text`
    | EditorChanged(text: string)   // the editor reports its plain text
    | ToggleToolbar                 // the formatting button
    | MouseDown(inside: bool)       // a mouse press inside or outside the box
    | Close                         // the Close button
    | EditorCleared                 // the clear-editor plugin has emptied the editor

  /**
   * One event. Focus enters editing mode, putting an empty title field on
   * screen if it was not there; a press outside the box while editing, or
   * Close (only on screen while editing), saves and then leaves editing with
   * the toolbar hidden and the title field gone.
   */
  function Handle(ed: NoteEditor, store: TodoList.Store, e: NoteEvent, now1: Date, now2: Date): (r: NoteResult)
    ensures e.Focus? ==> r.editor.isEditing && r.editor.titleInput.Some? && r.store == store
    ensures (e.Close? || e.MouseDown?) && !ed.isEditing ==> r == NoteResult(ed, store)
    ensures e.MouseDown? && e.inside ==> r == NoteResult(ed, store)
    ensures (e.Close? || (e.MouseDown? && !e.inside)) && ed.isEditing ==>
              && r.store == SaveNote(ed, store, now1, now2).store
              && !r.editor.isEditing && !r.editor.showToolbar && r.editor.titleInput.None?
    ensures !e.Close? && !e.MouseDown? ==> r.store == store
  {
    match e
    case Focus =>
      var title := if ed.isEditing && ed.titleInput.Some? then ed.titleInput else Some("");
      NoteResult(ed.(isEditing := true, titleInput := title), store)
    case TypeTitle(text) =>
      NoteResult(if ed.titleInput.Some? then ed.(titleInput := Some(text)) else ed, store)
    case EditorChanged(text) =>
      NoteResult(ed.(editorContent := text), store)
    case ToggleToolbar =>
      NoteResult(if ed.isEditing then ed.(showToolbar := !ed.showToolbar) else ed, store)
    case MouseDown(inside) =>
      if ed.isEditing && !inside then LeaveEditing(ed, store, now1, now2) else NoteResult(ed, store)
    case Close =>
      if ed.isEditing then LeaveEditing(ed, store, now1, now2) else NoteResult(ed, store)
    case EditorCleared =>
      NoteResult(ed.(shouldClearEditor := false), store)
  }

  /** Save, then leave editing: toolbar hidden, title field off screen. */
  function LeaveEditing(ed: NoteEditor, store: TodoList.Store, now1: Date, now2: Date): (r: NoteResult)
    ensures !r.editor.isEditing && !r.editor.showToolbar && r.editor.titleInput.None?
    ensures r.store == SaveNote(ed, store, now1, now2).store
  {
    var saved := SaveNote(ed, store, now1, now2);
    NoteResult(saved.editor.(isEditing := false, showToolbar := false, titleInput := None), saved.store)
  }

  /**
   * The title field is on screen exactly while editing, and the toolbar can
   * only be shown while editing (its toggle button is part of the editing view).
   */
  predicate Valid(ed: NoteEditor)
  {
    (ed.titleInput.Some? <==> ed.isEditing) && (ed.showToolbar ==> ed.isEditing)
  }

  /** The box starts valid, and every event keeps it valid. */
  lemma HandleKeepsValid(ed: NoteEditor, store: TodoList.Store, e: NoteEvent, now1: Date, now2: Date)
    ensures Valid(Initial)
    ensures Valid(ed) ==> Valid(Handle(ed, store, e, now1, now2).editor)
  {
  }

  /**
   * The whole flow: focus the empty box, type a title, write content, press
   * Close. A note is added exactly when the title or the content has
   * non-blank text, and the box ends closed and empty.
   */
  lemma WriteAndClose(store: TodoList.Store, title: string, content: string, now1: Date, now2: Date)
    ensures var r0 := Handle(Initial, store, Focus, now1, now2);
            var r1 := Handle(r0.editor, r0.store, TypeTitle(title), now1, now2);
            var r2 := Handle(r1.editor, r1.store, EditorChanged(content), now1, now2);
            var r3 := Handle(r2.editor, r2.store, Close, now1, now2);
            && !r3.editor.isEditing
            && (!IsBlank(title) || !IsBlank(content) ==>
                  r3.store.value == TodoList.AddItem(store.value,
                    TodoList.NewItem(Trim(title), Trim(content), false), now1, now2)
                  && r3.editor.editorContent == "" && r3.editor.shouldClearEditor)
            && (IsBlank(title) && IsBlank(content) ==> r3.store == store)
  {
    var r0 := Handle(Initial, store, Focus, now1, now2);
    assert r0 == NoteResult(Initial.(isEditing := true, titleInput := Some("")), store);
    var r1 := Handle(r0.editor, r0.store, TypeTitle(title), now1, now2);
    assert r1 == NoteResult(r0.editor.(titleInput := Some(title)), store);
    var r2 := Handle(r1.editor, r1.store, EditorChanged(content), now1, now2);
    var ed := NoteEditor(true, false, false, Some(title), content);
    assert r2 == NoteResult(ed, store);
    assert HasText(ed) <==> !IsBlank(title) || !IsBlank(content);
    assert NoteTitle(ed) == Trim(title);
    var r3 := Handle(r2.editor, r2.store, Close, now1, now2);
    assert r3 == LeaveEditing(ed, store, now1, now2);
  }
}

=== FILE: div_mod.dfy ===
/** Facts about Euclidean division by a positive divisor, for the column arithmetic. */
module DivMod {

  /** The quotient and remainder of `x` by `k` are the only such pair. */
  lemma Unique(x: int, k: int, q: int, r: int)
    requires k > 0 && 0 <= r < k && x == q * k + r
    ensures x / k == q && x % k == r
  {
    var q', r' := x / k, x % k;
    assert (q' - q) * k == r - r';
    if q' != q {
      Apart(q' - q, k);
      assert false;
    }
  }

  /** A non-zero multiple of `k` is at least `k` away from zero. */
  lemma Apart(d: int, k: int)
    requires k > 0 && d != 0
    ensures d * k >= k || d * k <= -k
  {
    if d >= 1 {
      AtLeast(d, k);
    } else {
      AtLeast(-d, k);
      assert d * k == -((-d) * k);
    }
  }

  lemma {:induction false} AtLeast(d: nat, k: int)
    requires d >= 1 && k > 0
    ensures d * k >= k
  {
    if d > 1 {
      AtLeast(d - 1, k);
      assert d * k == (d - 1) * k + k;
    }
  }

  /** Adding one to `m` either bumps its remainder by one, or wraps it to zero and bumps the quotient. */
  lemma Step(m: int, k: int)
    requires k > 0
    ensures m % k < k - 1 ==> (m + 1) / k == m / k && (m + 1) % k == m % k + 1
    ensures m % k == k - 1 ==> (m + 1) / k == m / k + 1 && (m + 1) % k == 0
  {
    if m % k < k - 1 {
      Unique(m + 1, k, m / k, m % k + 1);
    } else {
      assert m + 1 == (m / k + 1) * k + 0;
      Unique(m + 1, k, m / k + 1, 0);
    }
  }

  /** A smaller number has a smaller quotient, or the same quotient and a smaller remainder. */
  lemma Compare(x: int, y: int, k: int)
    requires k > 0 && x < y
    ensures x / k < y / k || (x / k == y / k && x % k < y % k)
  {
    if x / k > y / k {
      Gap(x, y, k);
      assert false;
    }
  }

  /** A larger quotient means a larger number. */
  lemma Gap(x: int, y: int, k: int)
    requires k > 0 && x / k > y / k
    ensures x > y
  {
    AtLeast(x / k - y / k, k);
    assert x - y == (x / k - y / k) * k + (x % k - y % k);
  }

  /** Multiplying by a positive `k` keeps strict order. */
  lemma ScaleLess(a: nat, b: nat, k: int)
    requires k > 0 && a < b
    ensures a * k < b * k
  {
    AtLeast(b - a, k);
    assert b * k - a * k == (b - a) * k;
  }
}

=== FILE: drag_and_drop.dfy ===
/**
 * The grid's drag bookkeeping (src/components/TodoMasonryGrid.tsx): which
 * card is being dragged, which card it hovers over, and the reorder request a
 * drop sends. Cards are named by their uuid; the empty string means "none".
 */
module DragAndDrop {

  import opened Wrappers

  type Id = string

  const NoCard: Id := ""

  /** The `draggingItem` and `overItem` state pair. */
  datatype DragState = DragState(dragging: Id, over: Id)

  /** The state before any drag, and after every drop or drag end. */
  const Idle: DragState := DragState(NoCard, NoCard)

  /** The mode string the grid passes to `reorderItems`: both ends are uuids. */
  const FromUuid: string := "fromUUID"

  /** A call `reorderItems(mode, from, to)`; what the list does with it is not part of this model. */
  datatype ReorderRequest = ReorderRequest(mode: string, from: Id, to: Id)

  /** The card events the grid handles; each names the card it fired on. */
  datatype DragEvent =
    | DragStart(id: Id)
    | DragOver(id: Id)
    | Drop(target: Id)
    | DragEnd

  /** The state after an event, and the reorder request it sends, if any. */
  datatype Outcome = Outcome(state: DragState, reorder: Option<ReorderRequest>)

  /**
   * One event. A start records the dragged card; hovering over a card other
   * than the dragged one makes it the drop target; a drop asks for a reorder
   * of the dragged card onto the target as they were before the drop, and a
   * drop or a drag end resets both to none.
   */
  function Handle(s: DragState, e: DragEvent): (o: Outcome)
    ensures o.reorder.Some? <==> e.Drop?
    ensures e.Drop? ==> o.reorder == Some(ReorderRequest(FromUuid, s.dragging, s.over))
    ensures e.Drop? || e.DragEnd? ==> o.state == Idle
    ensures e.DragStart? ==> o.state.dragging == e.id && o.state.over == s.over
    ensures e.DragOver? && e.id == s.dragging ==> o.state == s
    ensures e.DragOver? && e.id != s.dragging ==> o.state == DragState(s.dragging, e.id)
  {
    match e
    case DragStart(id) => Outcome(s.(dragging := id), None)
    case DragOver(id) => Outcome(if id != s.dragging then s.(over := id) else s, None)
    case Drop(_) => Outcome(Idle, Some(ReorderRequest(FromUuid, s.dragging, s.over)))
    case DragEnd => Outcome(Idle, None)
  }

  /** The state after hovering over the cards `ids`, in order. */
  function Hover(s: DragState, ids: seq<Id>): (r: DragState)
    ensures r.dragging == s.dragging
    ensures r.over == s.over || (r.over in ids && r.over != s.dragging)
  {
    if |ids| == 0 then s else Handle(Hover(s, ids[..|ids| - 1]), DragOver(ids[|ids| - 1])).state
  }

  /** The last of `ids` that is not `dragged`, or `fallback` when there is none. */
  function LastOther(ids: seq<Id>, dragged: Id, fallback: Id): (r: Id)
    ensures r == fallback || (r in ids && r != dragged)
  {
    if |ids| == 0 then fallback
    else if ids[|ids| - 1] != dragged then ids[|ids| - 1]
    else LastOther(ids[..|ids| - 1], dragged, fallback)
  }

  /**
   * `LastOther` picks the last position holding a card other than `dragged`:
   * `j` is that position, every later position holds `dragged`, and when no
   * such position exists (`j == -1`) the result is `fallback`.
   */
  lemma {:induction false} LastOtherIsLast(ids: seq<Id>, dragged: Id, fallback: Id) returns (j: int)
    ensures -1 <= j < |ids|
    ensures forall j' :: j < j' < |ids| ==> ids[j'] == dragged
    ensures j >= 0 ==> ids[j] != dragged && LastOther(ids, dragged, fallback) == ids[j]
    ensures j == -1 ==> LastOther(ids, dragged, fallback) == fallback
  {
    if |ids| == 0 {
      j := -1;
    } else if ids[|ids| - 1] != dragged {
      j := |ids| - 1;
    } else {
      j := LastOtherIsLast(ids[..|ids| - 1], dragged, fallback);
    }
  }

  /**
   * Hovering never changes the dragged card, and the drop target is the last
   * hovered card other than the dragged one: hovering over the dragged card
   * itself leaves the target alone.
   */
  lemma {:induction false} HoverTracksLastOther(s: DragState, ids: seq<Id>)
    ensures Hover(s, ids).dragging == s.dragging
    ensures Hover(s, ids).over == LastOther(ids, s.dragging, s.over)
  {
    if |ids| > 0 {
      HoverTracksLastOther(s, ids[..|ids| - 1]);
    }
  }

  /**
   * A whole gesture: start dragging `a`, hover over `ids`, drop. The request
   * moves `a` onto the last hovered card other than `a` (or onto the target
   * left from before), and the grid ends idle.
   */
  lemma Gesture(s: DragState, a: Id, ids: seq<Id>, target: Id)
    ensures var h := Hover(Handle(s, DragStart(a)).state, ids);
            Handle(h, Drop(target)) ==
              Outcome(Idle, Some(ReorderRequest(FromUuid, a, LastOther(ids, a, s.over))))
  {
    HoverTracksLastOther(Handle(s, DragStart(a)).state, ids);
  }
}

=== FILE: list_types.dfy ===
/** The persisted shapes of the todo list (src/types/list.ts). */
module ListTypes {

  /** A JavaScript `Date`, kept opaque: the model never looks inside a timestamp. */
  type Date = int

  /** One todo entry. */
  datatype ListItem = ListItem(
    title: string,
    content: string,
    completed: bool,
    createdAt: Date,
    updatedAt: Date)

  /** The whole list: its items in display order and two list-level timestamps. */
  datatype List = List(items: seq<ListItem>, createdAt: Date, updatedAt: Date)
}

=== FILE: masonry_grid.dfy ===
/**
 * The masonry grid's layout (src/components/TodoMasonryGrid.tsx): which view
 * it shows, in which order, in how many columns, and how the cards are dealt
 * to the columns. A card is any value: the layout never looks inside
 * one, it only moves cards.
 */
module MasonryGrid {

  import opened Wrappers
  import Seqs
  import DivMod

  /** The values the `viewMethod` prop may take. */
  datatype ViewMethod = All | Pinned

  /** The view shown when the prop is not given. */
  const DefaultView: ViewMethod := All

  /**
   * The cards in display order for the `viewMethod` prop (None when it is not
   * given): the pinned view exactly when the prop is `Pinned`, the non-pinned
   * view otherwise, reversed so the newest card comes first.
   */
  function DisplayItems<T>(view: Option<ViewMethod>, pinned: seq<T>, nonPinned: seq<T>): (r: seq<T>)
    ensures view == Some(Pinned) ==> multiset(r) == multiset(pinned)
    ensures view != Some(Pinned) ==> multiset(r) == multiset(nonPinned)
    ensures view == Some(Pinned) ==>
              |r| == |pinned| && forall i :: 0 <= i < |r| ==> r[i] == pinned[|r| - 1 - i]
    ensures view != Some(Pinned) ==>
              |r| == |nonPinned| && forall i :: 0 <= i < |r| ==> r[i] == nonPinned[|r| - 1 - i]
  {
    var pinnedView := view.GetOr(DefaultView) == Pinned;
    assert pinnedView <==> view == Some(Pinned);
    var source := if pinnedView then pinned else nonPinned;
    Seqs.ReverseMultiset(source);
    Seqs.Reverse(source)
  }

  /** Leaving the prop out is the same as asking for `All`: the non-pinned view, newest first. */
  lemma DefaultShowsAll<T>(pinned: seq<T>, nonPinned: seq<T>)
    ensures DisplayItems(None, pinned, nonPinned) == DisplayItems(Some(All), pinned, nonPinned)
    ensures DisplayItems(None, pinned, nonPinned) == Seqs.Reverse(nonPinned)
  {
  }

  /** The number of columns for a window `width` pixels wide (breakpoints 768, 1024, 1280). */
  function ColCount(width: int): (c: nat)
    ensures c == 7 <==> width >= 1280
    ensures c == 5 <==> 1024 <= width < 1280
    ensures c == 3 <==> 768 <= width < 1024
    ensures c == 1 <==> width < 768
  {
    if width >= 1280 then 7
    else if width >= 1024 then 5
    else if width >= 768 then 3
    else 1
  }

  /** A wider window never has fewer columns. */
  lemma ColCountMonotone(w1: int, w2: int)
    requires w1 <= w2
    ensures ColCount(w1) <= ColCount(w2)
  {
  }

  /** `cols` with `x` pushed onto the end of column `c`. */
  function Push<T>(cols: seq<seq<T>>, c: nat, x: T): (r: seq<seq<T>>)
    requires c < |cols|
    ensures |r| == |cols| && r[c] == cols[c] + [x]
    ensures forall i :: 0 <= i < |cols| && i != c ==> r[i] == cols[i]
  {
    cols[c := cols[c] + [x]]
  }

  /** The number of cards over all columns. */
  function TotalLength<T>(cols: seq<seq<T>>): nat
  {
    if |cols| == 0 then 0 else |cols[0]| + TotalLength(cols[1..])
  }

  /** The cards of all columns, as a multiset. */
  function Cards<T>(cols: seq<seq<T>>): multiset<T>
  {
    if |cols| == 0 then multiset{} else multiset(cols[0]) + Cards(cols[1..])
  }

  /** Pushing one card adds one to the total and that card to the multiset. */
  lemma {:induction false} PushCounts<T>(cols: seq<seq<T>>, c: nat, x: T)
    requires c < |cols|
    ensures TotalLength(Push(cols, c, x)) == TotalLength(cols) + 1
    ensures Cards(Push(cols, c, x)) == Cards(cols) + multiset{x}
  {
    var r := Push(cols, c, x);
    if c == 0 {
      assert r[1..] == cols[1..];
    } else {
      assert r[1..] == Push(cols[1..], c - 1, x);
      PushCounts(cols[1..], c - 1, x);
    }
  }

  /**
   * The `columnsData` memo: `colCount` empty columns, then each card in
   * display order pushed onto column `idx % colCount`.
   */
  function ColumnsData<T>(items: seq<T>, colCount: nat): (cols: seq<seq<T>>)
    requires colCount >= 1
    ensures |cols| == colCount
    ensures TotalLength(cols) == |items|
    ensures Cards(cols) == multiset(items)
    decreases |items|
  {
    if |items| == 0 then
      var empty := seq(colCount, _ => []);
      EmptyCounts(empty);
      empty
    else
      var n := |items| - 1;
      var prev := ColumnsData(items[..n], colCount);
      PushCounts(prev, n % colCount, items[n]);
      assert items == items[..n] + [items[n]];
      Push(prev, n % colCount, items[n])
  }

  lemma {:induction false} EmptyCounts<T>(cols: seq<seq<T>>)
    requires forall i :: 0 <= i < |cols| ==> cols[i] == []
    ensures TotalLength(cols) == 0 && Cards(cols) == multiset{}
  {
    if |cols| > 0 {
      EmptyCounts(cols[1..]);
    }
  }

  /** How many of the first `n` cards land in column `c` of `k`: the same for all columns, give or take one. */
  function ColumnSize(n: nat, k: nat, c: nat): nat
    requires k >= 1
  {
    n / k + (if c < n % k then 1 else 0)
  }

  /** One more card grows exactly the column it is dealt to, by one. */
  lemma ColumnSizeStep(n: nat, k: nat, c: nat)
    requires k >= 1 && c < k
    ensures ColumnSize(n + 1, k, c) == ColumnSize(n, k, c) + (if c == n % k then 1 else 0)
    ensures c == n % k ==> ColumnSize(n, k, c) * k + c == n
  {
    DivMod.Step(n, k);
  }

  /** The display position of the `j`-th card of column `c` when there are `k` columns. */
  function DisplayIndex(k: nat, c: nat, j: nat): nat
  {
    j * k + c
  }

  /**
   * The dealt columns in closed form: column `c` holds `ColumnSize` cards,
   * and its `j`-th card is display card `j * colCount + c`.
   */
  lemma {:induction false} ColumnsDataShape<T>(items: seq<T>, colCount: nat)
    requires colCount >= 1
    ensures forall c :: 0 <= c < colCount ==>
              |ColumnsData(items, colCount)[c]| == ColumnSize(|items|, colCount, c)
    ensures forall c, j :: 0 <= c < colCount && 0 <= j < |ColumnsData(items, colCount)[c]| ==>
              DisplayIndex(colCount, c, j) < |items| &&
              ColumnsData(items, colCount)[c][j] == items[DisplayIndex(colCount, c, j)]
    decreases |items|
  {
    var k := colCount;
    var cols := ColumnsData(items, k);
    if |items| > 0 {
      var n := |items| - 1;
      var prev := ColumnsData(items[..n], k);
      ColumnsDataShape(items[..n], k);
      assert cols == Push(prev, n % k, items[n]);
      forall c | 0 <= c < k
        ensures |cols[c]| == ColumnSize(|items|, k, c)
      {
        ColumnSizeStep(n, k, c);
      }
      forall c, j | 0 <= c < k && 0 <= j < |cols[c]|
        ensures DisplayIndex(k, c, j) < |items| && cols[c][j] == items[DisplayIndex(k, c, j)]
      {
        ColumnSizeStep(n, k, c);
        if c == n % k && j == |prev[c]| {
          assert j == ColumnSize(n, k, c);
          assert DisplayIndex(k, c, j) == n;
        } else {
          assert cols[c][j] == prev[c][j] == items[..n][DisplayIndex(k, c, j)];
        }
      }
    }
  }

  /** Display position `idx` is the `j`-th card of column `c` exactly when `c == idx % k` and `j == idx / k`. */
  lemma DisplayIndexUnique(k: nat, c: nat, j: nat, idx: nat)
    requires k >= 1 && c < k
    ensures DisplayIndex(k, c, j) == idx <==> c == idx % k && j == idx / k
  {
    if DisplayIndex(k, c, j) == idx {
      DivMod.Unique(idx, k, j, c);
    }
  }

  /**
   * Every displayed card is dealt exactly once: display card `idx` is card
   * `idx / colCount` of column `idx % colCount`, and no other slot of any
   * column holds display position `idx`.
   */
  lemma EachCardOnce<T>(items: seq<T>, colCount: nat, idx: nat)
    requires colCount >= 1 && idx < |items|
    ensures idx / colCount < |ColumnsData(items, colCount)[idx % colCount]|
    ensures ColumnsData(items, colCount)[idx % colCount][idx / colCount] == items[idx]
    ensures forall c, j ::
              0 <= c < colCount && 0 <= j < |ColumnsData(items, colCount)[c]| && DisplayIndex(colCount, c, j) == idx
              ==> c == idx % colCount && j == idx / colCount
  {
    var k := colCount;
    ColumnsDataShape(items, k);
    DivMod.Compare(idx, |items|, k);
    DisplayIndexUnique(k, idx % k, idx / k, idx);
    forall c, j | 0 <= c < k && 0 <= j < |ColumnsData(items, k)[c]| && DisplayIndex(k, c, j) == idx
      ensures c == idx % k && j == idx / k
    {
      DisplayIndexUnique(k, c, j, idx);
    }
  }

  /**
   * The columns are balanced: no two differ in length by more than one, and
   * a column to the left is never shorter than one to its right.
   */
  lemma ColumnsBalanced<T>(items: seq<T>, colCount: nat)
    requires colCount >= 1
    ensures forall c1, c2 :: 0 <= c1 < colCount && 0 <= c2 < colCount ==>
              |ColumnsData(items, colCount)[c1]| <= |ColumnsData(items, colCount)[c2]| + 1
    ensures forall c1, c2 :: 0 <= c1 <= c2 < colCount ==>
              |ColumnsData(items, colCount)[c2]| <= |ColumnsData(items, colCount)[c1]|
  {
    ColumnsDataShape(items, colCount);
  }

  /** Within a column, cards keep their display order. */
  lemma ColumnKeepsOrder<T>(items: seq<T>, colCount: nat, c: nat, j1: nat, j2: nat)
    requires colCount >= 1 && c < colCount && j1 < j2 < |ColumnsData(items, colCount)[c]|
    ensures DisplayIndex(colCount, c, j1) < DisplayIndex(colCount, c, j2) < |items|
    ensures ColumnsData(items, colCount)[c][j1] == items[DisplayIndex(colCount, c, j1)]
    ensures ColumnsData(items, colCount)[c][j2] == items[DisplayIndex(colCount, c, j2)]
  {
    ColumnsDataShape(items, colCount);
    DivMod.ScaleLess(j1, j2, colCount);
  }

  /** The grid's first card, top of the leftmost column, is the newest card of the shown view. */
  lemma NewestFirst<T>(view: Option<ViewMethod>, pinned: seq<T>, nonPinned: seq<T>, width: int)
    requires view == Some(Pinned) ==> pinned != []
    requires view != Some(Pinned) ==> nonPinned != []
    ensures |ColumnsData(DisplayItems(view, pinned, nonPinned), ColCount(width))[0]| > 0
    ensures ColumnsData(DisplayItems(view, pinned, nonPinned), ColCount(width))[0][0] ==
              (if view == Some(Pinned) then pinned[|pinned| - 1] else nonPinned[|nonPinned| - 1])
  {
    var items := DisplayItems(view, pinned, nonPinned);
    assert items[0] == (if view == Some(Pinned) then pinned[|pinned| - 1] else nonPinned[|nonPinned| - 1]);
    var k := ColCount(width);
    EachCardOnce(items, k, 0);
    assert 0 % k == 0 && 0 / k == 0;
  }
}

=== FILE: seqs.dfy ===
/** Generic sequence operations and facts used by the list and grid models. */
module Seqs {

  /** Cutting a sequence at `i` and `j` and gluing the three pieces gives it back. */
  lemma SplitAt<T>(s: seq<T>, i: nat, j: nat)
    requires i <= j <= |s|
    ensures s == s[..i] + s[i..j] + s[j..]
  {
  }

  /**
   * `s.filter((_, i) => i !== index)`: keeps, in order, every element whose
   * position differs from `index`. Any integer is accepted; an index that is
   * not a position of `s` matches nothing.
   */
  function RemoveAt<T>(s: seq<T>, index: int): (r: seq<T>)
    ensures 0 <= index < |s| ==> r == s[..index] + s[index + 1..]
    ensures !(0 <= index < |s|) ==> r == s
  {
    if |s| == 0 then []
    else
      var init := s[..|s| - 1];
      assert s == init + [s[|s| - 1]];
      RemoveAt(init, index) + (if |s| - 1 == index then [] else [s[|s| - 1]])
  }

  /** Removing one position takes exactly that element out of the multiset. */
  lemma RemoveAtMultiset<T>(s: seq<T>, index: int)
    ensures 0 <= index < |s| ==> multiset(RemoveAt(s, index)) + multiset{s[index]} == multiset(s)
  {
    if 0 <= index < |s| {
      SkipMultiset(s, index);
    }
  }

  lemma SkipMultiset<T>(s: seq<T>, index: int)
    requires 0 <= index < |s|
    ensures multiset(s[..index] + s[index + 1..]) + multiset{s[index]} == multiset(s)
  {
    assert s == s[..index] + [s[index]] + s[index + 1..];
  }

  /** `[...s].reverse()`. */
  function Reverse<T>(s: seq<T>): (r: seq<T>)
    ensures |r| == |s|
    ensures forall i :: 0 <= i < |s| ==> r[i] == s[|s| - 1 - i]
  {
    if |s| == 0 then [] else [s[|s| - 1]] + Reverse(s[..|s| - 1])
  }

  /** Reversing twice gives the sequence back. */
  lemma ReverseReverse<T>(s: seq<T>)
    ensures Reverse(Reverse(s)) == s
  {
  }

  /** Reversal reorders without adding or losing elements. */
  lemma {:induction false} ReverseMultiset<T>(s: seq<T>)
    ensures multiset(Reverse(s)) == multiset(s)
  {
    if |s| > 0 {
      ReverseMultiset(s[..|s| - 1]);
      assert s == s[..|s| - 1] + [s[|s| - 1]];
    }
  }
}

=== FILE: text.dfy ===
/**
 * `String.prototype.trim` as the browser defines it: strip every leading and
 * trailing character that ECMAScript classes as WhiteSpace or LineTerminator.
 */
module Text {

  import Seqs

  /** The ECMAScript WhiteSpace and LineTerminator code points. */
  predicate IsWhitespace(c: char)
  {
    || c == '\t' || c == '\n' || c == '\U{B}' || c == '\U{C}' || c == '\r' || c == ' '
    || c == '\U{A0}' || c == '\U{1680}' || ('\U{2000}' <= c <= '\U{200A}')
    || c == '\U{2028}' || c == '\U{2029}' || c == '\U{202F}' || c == '\U{205F}'
    || c == '\U{3000}' || c == '\U{FEFF}'
  }

  /** Every character of `s` is whitespace (the empty string is blank). */
  predicate IsBlank(s: string)
  {
    forall i :: 0 <= i < |s| ==> IsWhitespace(s[i])
  }

  /** Drops the leading whitespace of `s`. */
  function TrimStart(s: string): (r: string)
    ensures |r| <= |s| && r == s[|s| - |r|..]
    ensures IsBlank(s[..|s| - |r|])
    ensures r == [] || !IsWhitespace(r[0])
  {
    if |s| == 0 || !IsWhitespace(s[0]) then s else TrimStart(s[1..])
  }

  /** Drops the trailing whitespace of `s`. */
  function TrimEnd(s: string): (r: string)
    ensures |r| <= |s| && r == s[..|r|]
    ensures IsBlank(s[|r|..])
    ensures r == [] || !IsWhitespace(r[|r| - 1])
  {
    if |s| == 0 || !IsWhitespace(s[|s| - 1]) then s else TrimEnd(s[..|s| - 1])
  }

  /** `s.trim()`: `s` with its leading and trailing whitespace removed. */
  function Trim(s: string): (r: string)
    ensures |r| <= |s|
    ensures r == [] <==> IsBlank(s)
    ensures r != [] ==> !IsWhitespace(r[0]) && !IsWhitespace(r[|r| - 1])
  {
    var t := TrimStart(s);
    TrimBlank(s, t);
    TrimEnd(t)
  }

  lemma TrimBlank(s: string, t: string)
    requires t == TrimStart(s)
    ensures TrimEnd(t) == [] <==> IsBlank(s)
    ensures TrimEnd(t) != [] ==> !IsWhitespace(TrimEnd(t)[0])
  {
    if TrimEnd(t) == [] {
      TrimToEmpty(s, t);
    } else {
      TrimToNonEmpty(s, t);
    }
  }

  lemma TrimToEmpty(s: string, t: string)
    requires t == TrimStart(s) && TrimEnd(t) == []
    ensures IsBlank(s)
  {
    // A blank `t` that starts with a non-whitespace character is empty, so
    // TrimStart dropped the whole of `s`.
    assert t == [] by {
      assert t[|TrimEnd(t)|..] == t;
    }
    assert s[..|s|] == s;
  }

  lemma TrimToNonEmpty(s: string, t: string)
    requires t == TrimStart(s) && TrimEnd(t) != []
    ensures !IsBlank(s)
    ensures !IsWhitespace(TrimEnd(t)[0])
  {
    var r := TrimEnd(t);
    var k := |s| - |t|;
    assert t[0] == r[0];
    assert s[k] == t[0];
  }

  /**
   * `s` is blank text, then `Trim(s)`, then blank text: trimming removes only
   * whitespace, and only at the two ends.
   */
  lemma TrimSplit(s: string) returns (i: nat)
    ensures i + |Trim(s)| <= |s|
    ensures s == s[..i] + Trim(s) + s[i + |Trim(s)|..]
    ensures IsBlank(s[..i]) && IsBlank(s[i + |Trim(s)|..])
  {
    var t := TrimStart(s);
    var r := TrimEnd(t);
    assert r == Trim(s);
    i := |s| - |t|;
    var j := i + |r|;
    assert r == s[i..j];
    assert s[j..] == t[|r|..];
    Seqs.SplitAt(s, i, j);
  }

  /** Trimming twice is trimming once. */
  lemma TrimIdempotent(s: string)
    ensures Trim(Trim(s)) == Trim(s)
  {
    var r := Trim(s);
    assert TrimStart(r) == r;
    assert TrimEnd(r) == r;
  }
}

=== FILE: todo_list.dfy ===
/**
 * The todo-list state container (src/hooks/useTodoList.tsx): the start-up
 * load with its empty-list fallback, and the three index-based mutations
 * `addItem`, `deleteItem` and `modifyItem`, each of which replaces the list
 * wholesale and writes the new list to storage under the "todos" key.
 */
module TodoList {

  import opened Wrappers
  import opened ListTypes
  import Seqs

  /** What `addItem` takes from its caller: `Pick<ListItem, "title" | "content" | "completed">`. */
  datatype NewItem = NewItem(title: string, content: string, completed: bool)

  /** `Partial<ListItem>`: each field is either given (`Some`) or left out (`None`). */
  datatype Patch = Patch(
    title: Option<string>,
    content: Option<string>,
    completed: Option<bool>,
    createdAt: Option<Date>,
    updatedAt: Option<Date>)

  /** The patch that gives no field. */
  const NoChange: Patch := Patch(None, None, None, None, None)

  /** The patch that gives every field, with the values `item` has. */
  function Snapshot(item: ListItem): (p: Patch)
    ensures p.title.Some? && p.content.Some? && p.completed.Some?
    ensures p.createdAt.Some? && p.updatedAt.Some?
  {
    Patch(Some(item.title), Some(item.content), Some(item.completed),
          Some(item.createdAt), Some(item.updatedAt))
  }

  /** What reading the "todos" key produced at start-up. */
  datatype StorageRead =
    | ReadThrew           // `getItem` raised (storage disabled, say)
    | Missing             // `getItem` returned null
    | Found(text: string) // the stored text

  /**
   * The list shown when the read throws, the key is missing or empty, or the
   * text does not parse: no items, both timestamps "now".
   */
  function EmptyList(createdAt: Date, updatedAt: Date): (l: List)
    ensures l.items == []
  {
    List([], createdAt, updatedAt)
  }

  /**
   * The hook's initial state. Stored text that is non-empty and parses is the
   * list; a read that throws, a missing key, an empty string and text the
   * parser rejects (`parse` gives None where `JSON.parse` throws) all fall back
   * to an empty list stamped with the two "now" values.
   */
  function InitialList(read: StorageRead, parse: string -> Option<List>, now1: Date, now2: Date): (l: List)
    ensures read.Found? && read.text != [] && parse(read.text).Some? ==> l == parse(read.text).value
    ensures !(read.Found? && read.text != [] && parse(read.text).Some?) ==>
              l.items == [] && l.createdAt == now1 && l.updatedAt == now2
  {
    match read
    case Found(text) =>
      if text == [] then EmptyList(now1, now2)
      else (match parse(text)
            case Some(list) => list
            case None => EmptyList(now1, now2))
    case _ => EmptyList(now1, now2)
  }

  /**
   * `addItem`: appends an item with exactly the given title, content and
   * completed flag and the two fresh timestamps; everything else is kept.
   */
  function AddItem(l: List, v: NewItem, createdAt: Date, updatedAt: Date): (r: List)
    ensures |r.items| == |l.items| + 1
    ensures r.items[..|l.items|] == l.items
    ensures r.items[|l.items|] == ListItem(v.title, v.content, v.completed, createdAt, updatedAt)
    ensures r.createdAt == l.createdAt && r.updatedAt == l.updatedAt
  {
    l.(items := l.items + [ListItem(v.title, v.content, v.completed, createdAt, updatedAt)])
  }

  /**
   * `deleteItem(index)`: drops the item at `index` and keeps the others in
   * order; an index that is not a position of the list changes nothing.
   */
  function DeleteItem(l: List, index: int): (r: List)
    ensures 0 <= index < |l.items| ==> r.items == l.items[..index] + l.items[index + 1..]
    ensures 0 <= index < |l.items| ==> multiset(r.items) + multiset{l.items[index]} == multiset(l.items)
    ensures !(0 <= index < |l.items|) ==> r == l
    ensures r.createdAt == l.createdAt && r.updatedAt == l.updatedAt
  {
    Seqs.RemoveAtMultiset(l.items, index);
    l.(items := Seqs.RemoveAt(l.items, index))
  }

  /** `{ ...item, ...p }`: every field `p` gives overwrites, every field it leaves out is kept. */
  function Merge(item: ListItem, p: Patch): (r: ListItem)
    ensures p.title.Some? ==> r.title == p.title.value
    ensures p.title.None? ==> r.title == item.title
    ensures p.content.Some? ==> r.content == p.content.value
    ensures p.content.None? ==> r.content == item.content
    ensures p.completed.Some? ==> r.completed == p.completed.value
    ensures p.completed.None? ==> r.completed == item.completed
    ensures p.createdAt.Some? ==> r.createdAt == p.createdAt.value
    ensures p.createdAt.None? ==> r.createdAt == item.createdAt
    ensures p.updatedAt.Some? ==> r.updatedAt == p.updatedAt.value
    ensures p.updatedAt.None? ==> r.updatedAt == item.updatedAt
  {
    ListItem(
      p.title.GetOr(item.title),
      p.content.GetOr(item.content),
      p.completed.GetOr(item.completed),
      p.createdAt.GetOr(item.createdAt),
      p.updatedAt.GetOr(item.updatedAt))
  }

  /**
   * `modifyItem(index, p)`: merges `p` into the item at `index` and leaves
   * every other item as it was; an index that is not a position of the list
   * changes nothing.
   */
  function ModifyItem(l: List, index: int, p: Patch): (r: List)
    ensures |r.items| == |l.items|
    ensures forall i :: 0 <= i < |l.items| && i != index ==> r.items[i] == l.items[i]
    ensures 0 <= index < |l.items| ==> r.items[index] == Merge(l.items[index], p)
    ensures !(0 <= index < |l.items|) ==> r == l
    ensures r.createdAt == l.createdAt && r.updatedAt == l.updatedAt
  {
    var items := seq(|l.items|, i requires 0 <= i < |l.items| =>
                       if i == index then Merge(l.items[i], p) else l.items[i]);
    assert !(0 <= index < |l.items|) ==> items == l.items;
    l.(items := items)
  }

  /** `{ ...{ ...item, ...p }, ...q }` is `{ ...item, ...Then(p, q) }`: `q`'s fields win. */
  function Then(p: Patch, q: Patch): (r: Patch)
    ensures forall item :: Merge(Merge(item, p), q) == Merge(item, r)
  {
    Patch(
      if q.title.Some? then q.title else p.title,
      if q.content.Some? then q.content else p.content,
      if q.completed.Some? then q.completed else p.completed,
      if q.createdAt.Some? then q.createdAt else p.createdAt,
      if q.updatedAt.Some? then q.updatedAt else p.updatedAt)
  }

  /** The state the hook owns: the list in memory and the last list it wrote to storage. */
  datatype Store = Store(value: List, written: Option<List>)

  /** One call of a mutation the hook returns. */
  datatype Mutation =
    | Add(v: NewItem, createdAt: Date, updatedAt: Date)
    | Delete(index: int)
    | Modify(index: int, p: Patch)

  /** The list a mutation computes from the current list. */
  function Mutate(l: List, m: Mutation): (r: List)
    ensures r.createdAt == l.createdAt && r.updatedAt == l.updatedAt
  {
    match m
    case Add(v, c, u) => AddItem(l, v, c, u)
    case Delete(i) => DeleteItem(l, i)
    case Modify(i, p) => ModifyItem(l, i, p)
  }

  /**
   * Performs a mutation: the new list becomes the in-memory state and is the
   * value written to storage.
   */
  function Apply(s: Store, m: Mutation): (r: Store)
    ensures r.value == Mutate(s.value, m)
    ensures r.written == Some(r.value)
    ensures r.value.createdAt == s.value.createdAt && r.value.updatedAt == s.value.updatedAt
  {
    var l := Mutate(s.value, m);
    Store(l, Some(l))
  }

  /** Performs mutations one after another, each on the state the previous one left. */
  function ApplyAll(s: Store, ms: seq<Mutation>): Store
    decreases |ms|
  {
    if |ms| == 0 then s else ApplyAll(Apply(s, ms[0]), ms[1..])
  }

  /**
   * After any non-empty run of mutations the stored list is the in-memory
   * list, and the list-level timestamps are the ones the run started with.
   */
  lemma {:induction false} ApplyAllInSync(s: Store, ms: seq<Mutation>)
    ensures ms != [] ==> ApplyAll(s, ms).written == Some(ApplyAll(s, ms).value)
    ensures ApplyAll(s, ms).value.createdAt == s.value.createdAt
    ensures ApplyAll(s, ms).value.updatedAt == s.value.updatedAt
    decreases |ms|
  {
    if |ms| > 0 {
      ApplyAllInSync(Apply(s, ms[0]), ms[1..]);
    }
  }

  /** Deleting the item just added gives back the list as it was. */
  lemma DeleteUndoesAdd(l: List, v: NewItem, createdAt: Date, updatedAt: Date)
    ensures DeleteItem(AddItem(l, v, createdAt, updatedAt), |l.items|) == l
  {
    var a := AddItem(l, v, createdAt, updatedAt);
    assert a.items[..|l.items|] + a.items[|l.items| + 1..] == l.items;
  }

  /** A delete past the end is a no-op, so repeating it is too. */
  lemma DeletePastEndTwice(l: List, index: int)
    requires index < 0 || index >= |l.items|
    ensures DeleteItem(DeleteItem(l, index), index) == l
  {
  }

  /** Two modifications of one item are one modification by the combined patch. */
  lemma ModifyTwice(l: List, index: int, p: Patch, q: Patch)
    ensures ModifyItem(ModifyItem(l, index, p), index, q) == ModifyItem(l, index, Then(p, q))
  {
    var a := ModifyItem(ModifyItem(l, index, p), index, q);
    var b := ModifyItem(l, index, Then(p, q));
    assert a.items == b.items;
  }

  /** Modifying with the same patch twice is modifying once. */
  lemma ModifyIdempotent(l: List, index: int, p: Patch)
    ensures ModifyItem(ModifyItem(l, index, p), index, p) == ModifyItem(l, index, p)
  {
    ModifyTwice(l, index, p, p);
    assert Then(p, p) == p;
  }

  /** Writing back an item's old fields undoes a modification of it. */
  lemma ModifyRestore(l: List, index: int, p: Patch)
    requires 0 <= index < |l.items|
    ensures ModifyItem(ModifyItem(l, index, p), index, Snapshot(l.items[index])) == l
  {
    var a := ModifyItem(ModifyItem(l, index, p), index, Snapshot(l.items[index]));
    assert a.items == l.items;
  }

  /** The empty patch changes nothing. */
  lemma ModifyNoChange(l: List, index: int)
    ensures ModifyItem(l, index, NoChange) == l
  {
    var a := ModifyItem(l, index, NoChange);
    assert a.items == l.items;
  }
}

=== FILE: wrappers.dfy ===
/** Optional values: a value that may be absent (JavaScript's `undefined`/`null`). */
module Wrappers {

  datatype Option<+T> = None | Some(value: T) {

    /** Returns the value held in Some, or `default` when None. */
    function GetOr(default: T): (r: T)
      ensures Some? ==> r == value
      ensures None? ==> r == default
    {
      match this
      case Some(v) => v
      case None => default
    }
  }
}
